=== FILE: README.md ===
# Stolos coordination helpers and shell-executor watchdog, in Dafny

This project models the small, pure rules around Stolos's distributed
coordination layer, with the I/O removed:

- **The job status view** (`get_zk_status`). It reads an immutable snapshot of
  the coordination store: a map from node path to payload and child names.
  The store layout is `<app>/entries/<seq>` for queue entries, whose payload
  is a job id. Each job has a node at its job path whose payload is the state,
  plus `add_lock` and `execute_lock` directories under it. The view reports
  the lock counts, whether the job is in the queue, the queue size, and the
  state. Missing nodes are reported as a `NoNode` error, in the order the
  source reads them.
- **The lifecycle checks** (`validate_*`). They are predicates over the view.
  `PhaseOf` classifies a status record and proves that the checks are
  pairwise exclusive. `NQueuedOneEntryEach` proves that when `n` distinct jobs
  all pass the n-queued check, the queue holds exactly one readable entry per
  job.
- **Test-time task renaming** (`_create_tasks_json` and `inject_into_dag`).
  This covers the rename list, key-level renaming under
  `test_stolos/<func>/`, the merge in which injected tasks win, and the
  prefix guard of `inject_into_dag`.
- **The argument selection of `_smart_run`.** The code object's local names,
  parameter count and local count are inputs.
- **The shell plugin's `run` watchdog.** The child is described by its own
  return code, its output and how long it runs. The process table is a set of
  live pids plus the pids the worker may not signal. On the alarm, the kill
  list is the child followed by the direct children that `ps` printed. The
  kill loop swallows every `OSError`, and the result is the `(-9, '', '')`
  sentinel.
- **`get_process_children` parsing.** It applies `str.split()` and then
  `int()`. `str.split()` is characterised for every input as the words of
  the text's whitespace layout. A round trip is proved for pids rendered
  with any whitespace padding.
- **The plugin's `main`.** This covers command assembly (the default command
  with the `--bash` arguments appended and no separator, with an empty
  command refused), the three-way classification of the return code, and the
  `--watch` default of -1.

Module layout: `Wrappers` (Option/Result), `SeqFacts` (duplicates,
pigeonhole), `ZkStore`, `Validators`, `TaskConfig`, `SmartRun`, `PsOutput`,
`Watchdog`, `BashPlugin`.

What the code's own text suggests and what it does are not always the
same; the model follows what it does:

- `run`'s docstring says the command is "forcibly killed" after the
  timeout, and the `kill_tree` parameter suggests the whole tree goes. The
  code kills the child and only the processes `ps --ppid` lists, which are
  its direct children. Grandchildren survive
  (`Watchdog.UnlistedProcessesSurvive`).
- The `--watch` help says the watchdog kills the process "after a given
  seconds". Every value except -1 sets the watchdog up, but a value of 0
  requests `alarm(0)`, which schedules nothing, so it never fires
  (`Watchdog.ZeroTimeoutNeverFires`).
- `main` reads a return code of -9 as "Bash job timed out". A child that
  something else SIGKILLs also returns -9 and is reported the same way
  (`BashPlugin.ExternalKillReadsAsTimeout`).
- A missing command is reported with `UserWarning` ("You need to specify
  bash options or configure default bash options"), which is modelled as
  the `EmptyCommand` error.

## Model

| member | source | states |
|---|---|---|
| ZkStore.GetZkStatus | stolos/testing_tools.py:287-305 | A missing job node is an error. With the job node present, the view is readable exactly when the entries directory is absent or the lazy scan of its entries succeeds; on a store where every listed child exists it always is. `state` is the job node's payload. `in_queue` implies a queue size of at least 1. Every error names a path absent from the store. |
| ZkStore.ScanEntries | stolos/testing_tools.py:297-300 | The lazy `any` over queue entries. A matching entry preceded only by readable entries answers true, even if a later entry is missing. A missing entry preceded only by readable, non-matching entries fails with `NoNode` naming it, and every failure is of that form. When it succeeds, it answers true exactly when some listed entry's payload is the job id. It cannot fail when every entry exists. |
| ZkStore.StatusMeaning | stolos/testing_tools.py:289-303 | The lock counts and the queue size equal the number of children under `add_lock`, `execute_lock` and `<app>/entries`, and are 0 when the directory is absent. `in_queue` holds iff some entry's payload is the job id. |
| ZkStore.PayloadsOf | stolos/testing_tools.py:298-299 | Gives one payload per listed entry, in listing order. The payload is absent exactly when that entry's node is missing. |
| Validators.PhaseOf | stolos/testing_tools.py:221-268 | A status record passes a lifecycle check iff that check's phase is the one returned. Every record passes at most one of queued(n), queued-and-executing, completed, skipped and failed. |
| Validators.OneFailedTask | stolos/testing_tools.py:221-227 | The failed check: no execute lock, no add lock, not in the queue, state `failed`. The queue size is not checked. |
| Validators.OneQueuedExecutingTask | stolos/testing_tools.py:230-236 | The queued-and-executing check: one execute lock, no add lock, in the queue, a queue of size 1, state `pending`. |
| Validators.NQueuedTask | stolos/testing_tools.py:261-268 | The check applied to each of `n` job ids: no locks, in the queue, a queue of size `n`, state `pending`. |
| Validators.OneQueuedTask | stolos/testing_tools.py:239-240 | The n-queued check with `n` = 1. |
| Validators.OneCompletedTask | stolos/testing_tools.py:243-249 | The completed check: no locks, not in the queue, an empty queue, state `completed`. |
| Validators.OneSkippedTask | stolos/testing_tools.py:252-258 | The skipped check: no locks, not in the queue, an empty queue, state `skipped`. |
| Validators.ValidateTask | stolos/testing_tools.py:221-268 | A check run against the store passes only when the status view is readable (no `NoNode`) and the record passes the phase's check. |
| Validators.ValidateNQueuedTask | stolos/testing_tools.py:261-268 | Every listed job id passes the queued check with `n` equal to the number of ids. |
| Validators.ValidateOneQueuedTask | stolos/testing_tools.py:239-240 | The n-queued validation with the single id. |
| Validators.ValidateZeroQueuedTask | stolos/testing_tools.py:209-212 | The app's `entries` node is absent or has no children. |
| Validators.ValidateZeroCompletedTask | stolos/testing_tools.py:215-218 | The app's `all_subtasks` node is absent or has no children. |
| Validators.ChecksDisjoint | stolos/testing_tools.py:221-268 | Two checks that pass on the same record are the same check. |
| Validators.OneQueuedIsNQueuedOne | stolos/testing_tools.py:239-268 | The one-queued check means: no locks, in the queue, a queue of size 1, state `pending`. |
| Validators.OneQueuedValidation | stolos/testing_tools.py:239-240 | `validate_one_queued_task` passes iff the job passes the queued check with a queue of 1. |
| Validators.FailedIgnoresQueueSize | stolos/testing_tools.py:221-227 | The failed check passes whatever the queue size. Completed and skipped fail with a non-empty queue. |
| Validators.ZeroQueuedNotInQueue | stolos/testing_tools.py:209-212 | When the app's queue is empty or absent, any readable job view shows it out of the queue with queue size 0. |
| Validators.NQueuedOneEntryEach | stolos/testing_tools.py:261-268 | Suppose n ≥ 1 distinct job ids all pass the n-queued check. Then the queue has n entries, and every entry is readable with a payload that is one of the ids. No payload repeats, and every id has an entry. |
| TaskConfig.RenameKey | stolos/testing_tools.py:121-124 | A renamed key always carries the test prefix. A key that already has the prefix is left unchanged, and any other key `k` becomes exactly `prefix + k`. |
| TaskConfig.RenameList | stolos/testing_tools.py:121-124 | Each rename pair maps a listed key `k` that lacks the prefix to `prefix + k`. Every such key has a pair. There are never more pairs than keys. |
| TaskConfig.Renames | stolos/testing_tools.py:121-124 | The rename pairs over the base keys and the injected keys map `k` to `test_stolos/<func>/k`. Every unprefixed key of either configuration gets a pair. |
| TaskConfig.RenamesIdempotent | stolos/testing_tools.py:121-124 | Computing renames over keys that have already been renamed yields no pairs. |
| TaskConfig.RenameConfig | stolos/testing_tools.py:125-129 | Every key of the renamed configuration carries the prefix and comes from a key of the original. Each original task is found under its renamed key, except that a key that already had the prefix wins a collision. |
| TaskConfig.RenameConfigKeepsPrefixed | stolos/testing_tools.py:183-188 | A configuration whose keys all carry the prefix is unchanged by renaming. |
| TaskConfig.MergeConfig | stolos/testing_tools.py:129-130 | The merged keys are the union of the renamed keys. An injected task overrides a base task of the same name. Other base tasks are kept. |
| TaskConfig.InjectIntoDag | stolos/testing_tools.py:179-195 | Injection is refused iff some injected key lacks `test_stolos/<func>/`. Otherwise, at the level of keys, every injected task appears under its own name with its own definition. The rest of the graph survives: a base task `k` is kept under `test_stolos/<func>/k` unless an injected task or an already prefixed base task takes that name, and prefixed base tasks that are not overridden are kept. Every name in the result carries the prefix, so no old name survives, and each is an injected name, a base name, or the prefix plus a base name. |
| SmartRun.SmartRunCall | stolos/testing_tools.py:26-34 | The keyword args passed are exactly those whose names occur among the first `co_nlocals` local names, with their values. The positional args passed are a prefix of `args`. |
| SmartRun.SmartRunPositionalPrefix | stolos/testing_tools.py:30-33 | When local names are distinct, no more than `co_nlocals` keyword args are passed. The positional args are then the first `co_nlocals` minus the number of selected kwargs of `args`, or all of them if there are fewer. |
| SmartRun.SmartRunPassesNonParameter | stolos/testing_tools.py:30-32 | A local that is not a parameter (`log` in `["app1", "log"]` with one parameter) is still passed as a keyword. |
| SmartRun.SmartRunParams | stolos/testing_tools.py:30-33 | With the selection restricted to the first `co_argcount` names, only parameters are passed as keywords. With distinct names, keywords plus positionals never exceed the parameter count. |
| PsOutput.Split | scheduler/scheduler/plugins/bash_plugin.py:54 | Every piece produced by `str.split()` is non-empty and contains no whitespace. What the pieces are is stated by `SplitLayout` and `SplitWords`. |
| PsOutput.SplitLayout | scheduler/scheduler/plugins/bash_plugin.py:54 | For any non-empty whitespace-free words, each with whitespace padding in front (non-empty after the first) and whitespace after the last, `str.split()` of the text yields exactly those words, in order. |
| PsOutput.DecomposeSeparated | scheduler/scheduler/plugins/bash_plugin.py:54 | Every text can be written as such a padded layout of words. |
| PsOutput.SplitWords | scheduler/scheduler/plugins/bash_plugin.py:54 | For every text, `str.split()` yields the words of its padded layout, which pins the result down for all inputs. |
| PsOutput.ParseInt | scheduler/scheduler/plugins/bash_plugin.py:54 | `int()` rejects a piece with `ValueError` iff it is not digits, or a sign followed by digits. Digits read as their base-10 value, `+digits` as the same value, and `-digits` as its negation. |
| PsOutput.ParseSigned | scheduler/scheduler/plugins/bash_plugin.py:54 | Every integer written in decimal, with a `-` when negative, reads back as itself. |
| PsOutput.ParseAll | scheduler/scheduler/plugins/bash_plugin.py:54 | On success there is one integer per piece, each being what `int()` reads. A failure means some piece is not an integer. |
| PsOutput.ProcessChildren | scheduler/scheduler/plugins/bash_plugin.py:50-54 | `get_process_children` yields one pid per whitespace-separated piece of the `ps` output. |
| PsOutput.ProcessChildrenRoundTrip | scheduler/scheduler/plugins/bash_plugin.py:50-54 | Pids rendered in decimal and separated by any whitespace (spaces, newlines, `ps` padding) parse back to the same list. |
| Watchdog.KillAll | scheduler/scheduler/plugins/bash_plugin.py:39-45 | Every listed pid gets one attempt, and no failure stops the loop. Afterwards the live set has lost exactly the listed pids the worker may signal. A pid that is already dead gives "no such process". A pid the worker may not signal gives "not permitted" and survives. |
| Watchdog.Kill | scheduler/scheduler/plugins/bash_plugin.py:42-45 | `kill(pid, SIGKILL)` kills iff the pid is live and the worker may signal it. It is refused as not permitted iff the pid is live but may not be signalled. Only a killed pid leaves the live set. |
| Watchdog.Armed | scheduler/scheduler/plugins/bash_plugin.py:28 | The watchdog is set up for every timeout except -1. |
| Watchdog.AlarmSeconds | scheduler/scheduler/plugins/bash_plugin.py:30 | The seconds given to `alarm` are below 2^32 and congruent to the timeout modulo 2^32, and equal to it when it fits. |
| Watchdog.AlarmFires | scheduler/scheduler/plugins/bash_plugin.py:28-35 | The alarm interrupts `communicate` when it is set up, its seconds are not 0, and the child is still running when they elapse. |
| Watchdog.KillList | scheduler/scheduler/plugins/bash_plugin.py:36-38 | The child's pid comes first. The `ps` children follow only when `kill_tree` is set. |
| Watchdog.Run | scheduler/scheduler/plugins/bash_plugin.py:12-47 | If the alarm does not fire, the result is the child's `(returncode, stdout, stderr)` unchanged and nothing is killed. If it fires, the result is exactly `(-9, '', '')`, the signalled pids are the kill list, and the live set loses exactly the signalable ones. A `ps` output that `int()` rejects is the only error. |
| Watchdog.UnarmedRunIsChildResult | scheduler/scheduler/plugins/bash_plugin.py:28-47 | With timeout -1 the run returns the child's own result and leaves the process table alone. |
| Watchdog.ZeroTimeoutNeverFires | scheduler/scheduler/plugins/bash_plugin.py:28-30 | A timeout of 0 arms the watchdog but can never interrupt the child. |
| Watchdog.UnlistedProcessesSurvive | scheduler/scheduler/plugins/bash_plugin.py:36-51 | A live process outside the kill list, such as a grandchild that `ps --ppid` does not list, is still alive after the run. |
| Watchdog.TimeoutKillsChildAndListed | scheduler/scheduler/plugins/bash_plugin.py:35-54 | Suppose the alarm fires and `ps` printed the direct children. Then the run returns the sentinel, and the child and every listed child the worker may signal are dead. |
| BashPlugin.JoinSpaceEmpty | scheduler/scheduler/plugins/bash_plugin.py:67-68 | `' '.join(xs)` is empty iff `xs` is empty or a single empty string. |
| BashPlugin.JoinSpace | scheduler/scheduler/plugins/bash_plugin.py:68 | `' '.join(xs)` starts with the first element, and a single space follows it when there are more. |
| BashPlugin.SplitJoinSpace | scheduler/scheduler/plugins/bash_plugin.py:68 | Arguments that are non-empty and contain no whitespace, joined with spaces, split back into the same arguments. |
| BashPlugin.NotQuoted | scheduler/scheduler/plugins/bash_plugin.py:68 | The argument `a b` joined on its own splits into the two words `a` and `b`: arguments are not quoted. |
| BashPlugin.AssembleCommand | scheduler/scheduler/plugins/bash_plugin.py:66-75 | The command is refused iff the default is empty and the user arguments join to nothing. Otherwise it starts with the default, and the space-joined user arguments follow directly with no separator. |
| BashPlugin.NoSeparatorInserted | scheduler/scheduler/plugins/bash_plugin.py:67-68 | `./job.sh` with arguments `--date 2014` becomes `./job.sh--date 2014`. |
| BashPlugin.Classify | scheduler/scheduler/plugins/bash_plugin.py:84-90 | Every return code gets exactly one verdict: -9 is timed out, any other non-zero code is failed, and 0 is success. |
| BashPlugin.WatchFlag | scheduler/scheduler/plugins/bash_plugin.py:100-104 | Without `--watch` the timeout is -1, and the watchdog is not armed. A supplied value is used as given. |
| BashPlugin.BashMain | scheduler/scheduler/plugins/bash_plugin.py:57-90 | An empty command is an error and nothing runs. Success requires no alarm and return code 0. A timeout verdict arises from the alarm (when `ps` parses) or from a child that itself returned -9. A failure verdict arises from any other non-zero code. Without an alarm no process is killed. |
| BashPlugin.ExternalKillReadsAsTimeout | scheduler/scheduler/plugins/bash_plugin.py:81-88 | A child that returns -9 before any alarm, for example one killed from outside, is reported as a timeout. |
| BashPlugin.NoWatchFlagNoWatchdog | scheduler/scheduler/plugins/bash_plugin.py:81-104 | Without `--watch`, no process is killed and the verdict follows the child's own return code. |

## Left out

- `stolos/event_logging.py`: it is a wrapper over a SQL library (engine, schema, timestamps, swallowed database errors) with no self-contained logic.
- Process control: `Popen`, `communicate`, `SIGALRM`/`alarm` and the `kill` system call are replaced by the `Child` description and the `Procs` table. The `ps` subprocess is replaced by its output text, which is an input.
- Watchdog.Run: a timeout outside the 32-bit `int` range, which the interpreter rejects with `OverflowError`, is not modelled. The alarm seconds are the timeout modulo 2^32.
- Watchdog.Run: a child that finishes in exactly the alarm's number of seconds counts as interrupted. That race is decided by the operating system.
- Watchdog.Kill: the process-group meaning of `kill` for pids 0 and below is not modelled. Such a pid is treated as a single process.
- Reaping is not modelled: the live set is not changed for a child that exits on its own.
- Coordination-service client calls (`exists`, `get`, `get_children`, `delete`) are modelled as lookups in an immutable snapshot. Nodes vanishing between two reads (races) are not modelled.
- `_get_zookeeper_path` is a parameter (`JobPathFn`); its definition is not part of this model.
- The locking queue is not modelled: `cycle_queue`, `consume_queue` and the `enqueue` helper with `api.maybe_add_subtask`. `zk.LockingQueue` and `api` are not part of this model.
- The `{...}` template substitution `cmd.format(...)`, `dag_tools.parse_job_id` and `dag_tools.get_bash_opts` are not modelled. The configured default command is an input. The formatted command is opaque, and its behaviour is the `Child` input.
- `runner.log_and_raise` and the logging calls are not modelled; they become error results.
- The nose decorator plumbing (`_with_setup`, `with_setup`, `_setup_func`, `_teardown_func`) is not modelled, nor are the tempfile and JSON file I/O and `_initialize`. The code object's locals are inputs of `SmartRun`.
- TaskConfig.RenameConfig: renaming is at the key level only. The source rewrites the JSON text, which also renames string values equal to an app name; values are left untouched here.
- TaskConfig.RenameConfig: when both `k` and `test_stolos/<func>/k` are keys, the source keeps whichever comes later in the serialised JSON. The model keeps the entry already under the prefixed name.
- Validators.ValidateZeroCompletedTask: it is stated as a predicate only. Completion records have no other role in this model.
- Watchdog.Run: every child is modelled as finishing after `seconds`. In the source, a child that never exits blocks `communicate` (line 32 of the plugin) forever unless an alarm fires. That happens with timeout -1 or 0, or with a negative timeout whose alarm lies about 136 years away. Such a run returns nothing, and the model has no such outcome.
- TaskConfig.InjectIntoDag: task definitions are opaque, so the text rewrite of `_create_tasks_json` (lines 126-127 of the testing tools), which also renames every quoted app name inside the injected definitions, is not modelled. In the source an injected task whose definition names an unprefixed app (for example `{'depends_on': {'app_name': ['app1']}}`) comes back with that value renamed to `test_stolos/<func>/app1`, and the `assert dg[k] == v` of `inject_into_dag` (lines 193-195) fails. The model's promise that injected tasks come back unchanged holds only for definitions that name no unprefixed app.
- PsOutput.ParseInt: only the ASCII digits 0-9 are accepted. `int()` on a Unicode string also accepts other decimal digits, which `ps` does not print.

## Findings

| source | as written | input that shows it | evidently intended | confidence | as-written member | corrected member |
|---|---|---|---|---|---|---|
| stolos/testing_tools.py:30-33 | Keyword args are kept when their name occurs in `co_varnames[:co_nlocals]`. That is every local name of the function, not only its parameters. The number of positional args is also derived from `co_nlocals`. | A test function with local names `["app1", "log"]`, one parameter, and setup kwargs `{app1, log}`: `log` is passed as a keyword, and the call fails with an unexpected keyword argument. | Select among the first `co_argcount` names (the parameters), and pass at most as many positional args as parameters remain. | medium; not executed | SmartRun.SmartRunPassesNonParameter | SmartRun.SmartRunParams |

=== FILE: bash_plugin.dfy ===
/** The shell-command plugin's `main`: assemble the command from the app's
    configured default and the user's `--bash` arguments, run it under the
    `--watch` watchdog, and classify the return code. */
module BashPlugin {
  import opened Wrappers
  import opened PsOutput
  import opened Watchdog

  /** `' '.join(xs)`. */
  function JoinSpace(xs: seq<string>): (r: string)
    ensures |xs| > 0 ==> |xs[0]| <= |r| && r[..|xs[0]|] == xs[0]
    ensures |xs| > 1 ==> |xs[0]| < |r| && r[|xs[0]|] == ' '
  {
    if |xs| == 0 then ""
    else if |xs| == 1 then xs[0]
    else xs[0] + " " + JoinSpace(xs[1..])
  }

  /** A space-joined list is empty only when it has no element, or a single
      empty one. */
  lemma JoinSpaceEmpty(xs: seq<string>)
    ensures JoinSpace(xs) == "" <==> |xs| == 0 || (|xs| == 1 && xs[0] == "")
  {
    if |xs| > 1 {
      assert |JoinSpace(xs)| >= 1;
    }
  }

  /** The layout `' '.join` produces: the first word after `lead`, every
      later word after one space. */
  function SpacedPieces(lead: string, xs: seq<string>): (ps: seq<Piece>)
    ensures |ps| == |xs|
    ensures forall i :: 0 <= i < |xs| ==> ps[i].word == xs[i]
    ensures forall i :: 0 <= i < |xs| ==> ps[i].lead == if i == 0 then lead else " "
    decreases |xs|
  {
    if xs == [] then [] else [Piece(lead, xs[0])] + SpacedPieces(" ", xs[1..])
  }

  lemma {:induction false} JoinSpaceLayout(lead: string, xs: seq<string>)
    requires xs != []
    ensures Layout(SpacedPieces(lead, xs), "") == lead + JoinSpace(xs)
    decreases |xs|
  {
    var ps := SpacedPieces(lead, xs);
    assert ps[1..] == SpacedPieces(" ", xs[1..]);
    if |xs| == 1 {
      assert ps[1..] == [];
    } else {
      JoinSpaceLayout(" ", xs[1..]);
    }
  }

  /** Joining arguments that contain no whitespace with single spaces and
      splitting the command line on whitespace gives the arguments back;
      an argument that contains whitespace is not quoted and would come
      apart. */
  lemma {:induction false} SplitJoinSpace(xs: seq<string>)
    requires forall i :: 0 <= i < |xs| ==> |xs[i]| > 0 && NoSpace(xs[i])
    ensures Split(JoinSpace(xs)) == xs
  {
    if xs != [] {
      var ps := SpacedPieces("", xs);
      JoinSpaceLayout("", xs);
      assert "" + JoinSpace(xs) == JoinSpace(xs);
      SplitLayout(ps, "");
      assert Words(ps) == xs;
    }
  }

  /** `' '.join` does not quote: an argument containing a space reaches
      the shell as two words. */
  lemma NotQuoted()
    ensures Split(JoinSpace(["a b"])) == ["a", "b"]
  {
    assert Token("a b") == "a";
    assert Split(" b") == Split("b");
    assert Token("b") == "b";
  }

  datatype PluginError =
    | EmptyCommand
    | JobTimedOut(run: RunResult)
    | JobFailed(run: RunResult)
    | PsOutputInvalid(parse: ParseError)

  /** The command before template substitution: the configured default with
      the user's arguments appended directly, no separator in between; an
      empty command is refused. `bash` is None when `--bash` was not given. */
  function AssembleCommand(defaults: string, bash: Option<seq<string>>): (r: Result<string, PluginError>)
    ensures r.Err? ==> r.error == EmptyCommand
    ensures r.Err? <==>
      defaults == "" && (bash.None? || |bash.value| == 0 || (|bash.value| == 1 && bash.value[0] == ""))
    ensures r.Ok? ==> |defaults| <= |r.value| && r.value[..|defaults|] == defaults
    ensures r.Ok? && bash.Some? ==> r.value[|defaults|..] == JoinSpace(bash.value)
    ensures r.Ok? && bash.None? ==> r.value == defaults
  {
    var cmd := if bash.Some? && |bash.value| > 0 then defaults + JoinSpace(bash.value) else defaults;
    assert bash.Some? ==> (JoinSpace(bash.value) == "" <==>
      |bash.value| == 0 || (|bash.value| == 1 && bash.value[0] == "")) by {
      if bash.Some? {
        JoinSpaceEmpty(bash.value);
      }
    }
    assert cmd[..|defaults|] == defaults;
    if cmd == "" then Err(EmptyCommand) else Ok(cmd)
  }

  /** User arguments are glued to the default command as they are. */
  lemma NoSeparatorInserted()
    ensures AssembleCommand("./job.sh", Some(["--date", "2014"])) == Ok("./job.sh--date 2014")
  {
    var args := ["--date", "2014"];
    assert JoinSpace(args[1..]) == "2014";
    assert JoinSpace(args) == "--date 2014";
    assert "./job.sh" + "--date 2014" == "./job.sh--date 2014";
  }

  datatype Verdict = Succeeded | TimedOut | Failed

  /** The three-way reading of a return code. */
  function Classify(returncode: int): (v: Verdict)
    ensures v == TimedOut <==> returncode == -9
    ensures v == Failed <==> returncode != 0 && returncode != -9
    ensures v == Succeeded <==> returncode == 0
  {
    if returncode == -9 then TimedOut
    else if returncode != 0 then Failed
    else Succeeded
  }

  /** `--watch`: the value given, or -1 when the flag is absent. */
  function WatchFlag(supplied: Option<int>): (t: int)
    ensures supplied.None? ==> !Armed(t)
    ensures supplied.Some? ==> t == supplied.value
  {
    if supplied.Some? then supplied.value else -1
  }

  /** The outcome of `main` and the process table afterwards. */
  datatype PluginRun = PluginRun(outcome: Result<RunResult, PluginError>, procs: Procs)

  /** `main` with the command's own behaviour given as `child`, run with
      tree killing and the `--watch` timeout. */
  function BashMain(defaults: string, bash: Option<seq<string>>, watch: int, child: Child,
                    psOutput: string, procs: Procs): (r: PluginRun)
    ensures AssembleCommand(defaults, bash).Err? ==> r == PluginRun(Err(EmptyCommand), procs)
    ensures r.outcome.Ok? <==>
      AssembleCommand(defaults, bash).Ok? && !AlarmFires(watch, child) && child.returncode == 0
    ensures r.outcome.Err? && r.outcome.error.JobTimedOut? <==>
      && AssembleCommand(defaults, bash).Ok?
      && ((AlarmFires(watch, child) && ProcessChildren(psOutput).Ok?)
          || (!AlarmFires(watch, child) && child.returncode == -9))
    ensures r.outcome.Err? && r.outcome.error.JobFailed? <==>
      && AssembleCommand(defaults, bash).Ok?
      && !AlarmFires(watch, child) && child.returncode != 0 && child.returncode != -9
    ensures !AlarmFires(watch, child) ==> r.procs == procs
  {
    match AssembleCommand(defaults, bash)
    case Err(e) => PluginRun(Err(e), procs)
    case Ok(_) =>
      match Run(child, true, watch, psOutput, procs)
      case Err(pe) => PluginRun(Err(PsOutputInvalid(pe)), procs)
      case Ok(report) =>
        var outcome :=
          match Classify(report.result.returncode)
          case TimedOut => Err(JobTimedOut(report.result))
          case Failed => Err(JobFailed(report.result))
          case Succeeded => Ok(report.result);
        PluginRun(outcome, report.procs)
  }

  /** A child killed from outside with SIGKILL also returns -9, and `main`
      reports it exactly as a watchdog timeout: the two cannot be told
      apart by verdict. */
  lemma ExternalKillReadsAsTimeout(defaults: string, bash: Option<seq<string>>, watch: int,
                                   child: Child, psOutput: string, procs: Procs)
    requires AssembleCommand(defaults, bash).Ok?
    requires child.returncode == -9
    requires !AlarmFires(watch, child)
    ensures BashMain(defaults, bash, watch, child, psOutput, procs).outcome ==
      Err(JobTimedOut(RunResult(-9, child.stdout, child.stderr)))
  {
  }

  /** Without `--watch` no watchdog runs: no process is killed and the
      verdict follows the child's own return code. */
  lemma NoWatchFlagNoWatchdog(defaults: string, bash: Option<seq<string>>, child: Child,
                              psOutput: string, procs: Procs)
    requires AssembleCommand(defaults, bash).Ok?
    ensures var r := BashMain(defaults, bash, WatchFlag(None), child, psOutput, procs);
      && r.procs == procs
      && r.outcome == match Classify(child.returncode)
         case Succeeded => Ok(RunResult(child.returncode, child.stdout, child.stderr))
         case TimedOut => Err(JobTimedOut(RunResult(child.returncode, child.stdout, child.stderr)))
         case Failed => Err(JobFailed(RunResult(child.returncode, child.stdout, child.stderr)))
  {
  }
}

=== FILE: ps_output.dfy ===
/** Parsing the output of `ps --no-headers -o pid --ppid <pid>` into
    process ids: split on runs of whitespace, then read each piece as a
    decimal integer (an optional sign, then digits), as `int()` does. */
module PsOutput {
  import opened Wrappers

  /** The characters `str.split()` with no argument splits on. */
  predicate IsSpace(c: char) {
    c == ' ' || c == '\t' || c == '\n' || c == '\r' || c == '\U{000B}' || c == '\U{000C}'
  }

  predicate AllSpace(s: string) {
    forall i :: 0 <= i < |s| ==> IsSpace(s[i])
  }

  predicate NoSpace(s: string) {
    forall i :: 0 <= i < |s| ==> !IsSpace(s[i])
  }

  /** The longest prefix without whitespace. */
  function Token(s: string): (t: string)
    ensures |t| <= |s| && t == s[..|t|]
    ensures NoSpace(t)
    ensures |t| < |s| ==> IsSpace(s[|t|])
  {
    if s == [] || IsSpace(s[0]) then []
    else [s[0]] + Token(s[1..])
  }

  /** `str.split()`: the maximal runs of non-whitespace, in order. What the
      pieces are is stated by `SplitLayout` and `SplitWords` below. */
  function Split(s: string): (ws: seq<string>)
    ensures forall i :: 0 <= i < |ws| ==> |ws[i]| > 0 && NoSpace(ws[i])
    decreases |s|
  {
    if s == [] then []
    else if IsSpace(s[0]) then Split(s[1..])
    else
      var t := Token(s);
      [t] + Split(s[|t|..])
  }

  /** A text seen as words with whitespace padding in front of each, and
      whitespace after the last. */
  datatype Piece = Piece(lead: string, word: string)

  function Layout(pieces: seq<Piece>, trail: string): string {
    if pieces == [] then trail
    else pieces[0].lead + pieces[0].word + Layout(pieces[1..], trail)
  }

  function Words(pieces: seq<Piece>): (ws: seq<string>)
    ensures |ws| == |pieces|
    ensures forall i :: 0 <= i < |pieces| ==> ws[i] == pieces[i].word
  {
    seq(|pieces|, i requires 0 <= i < |pieces| => pieces[i].word)
  }

  /** The layout is unambiguous: every padding is whitespace, every word is
      non-empty and whitespace-free, words after the first are preceded by
      some whitespace, and the trailing text is whitespace. */
  predicate Separated(pieces: seq<Piece>, trail: string) {
    && (forall i :: 0 <= i < |pieces| ==> AllSpace(pieces[i].lead))
    && (forall i :: 0 <= i < |pieces| ==> |pieces[i].word| > 0 && NoSpace(pieces[i].word))
    && (forall i :: 1 <= i < |pieces| ==> |pieces[i].lead| > 0)
    && AllSpace(trail)
  }

  /** The longest prefix made of whitespace. */
  function SpaceRun(s: string): (w: string)
    ensures |w| <= |s| && w == s[..|w|]
    ensures AllSpace(w)
    ensures |w| < |s| ==> !IsSpace(s[|w|])
  {
    if s == [] || !IsSpace(s[0]) then []
    else [s[0]] + SpaceRun(s[1..])
  }

  /** The layout of a text: its words with the whitespace in front of
      each, and the whitespace after the last. */
  function Decompose(s: string): (d: (seq<Piece>, string))
    decreases |s|
  {
    var w := SpaceRun(s);
    var rest := s[|w|..];
    if rest == [] then ([], w)
    else
      var t := Token(rest);
      var d := Decompose(rest[|t|..]);
      ([Piece(w, t)] + d.0, d.1)
  }

  /** Every text has a separated layout, and `Decompose` finds it. */
  lemma {:induction false} DecomposeSeparated(s: string)
    ensures Separated(Decompose(s).0, Decompose(s).1)
    ensures Layout(Decompose(s).0, Decompose(s).1) == s
    ensures |s| > 0 && IsSpace(s[0]) && |Decompose(s).0| > 0 ==> |Decompose(s).0[0].lead| > 0
    decreases |s|
  {
    var w := SpaceRun(s);
    var rest := s[|w|..];
    if rest == [] {
      assert s == w;
    } else {
      var t := Token(rest);
      var tail := rest[|t|..];
      DecomposeSeparated(tail);
      var d := Decompose(tail);
      var p := Piece(w, t);
      var ps := [p] + d.0;
      assert Decompose(s) == (ps, d.1);
      LayoutCons(p, d.0, d.1);
      assert s == w + (t + tail);
      assert |t| > 0 by {
        assert !IsSpace(rest[0]);
      }
      forall i | 0 <= i < |ps|
        ensures AllSpace(ps[i].lead) && |ps[i].word| > 0 && NoSpace(ps[i].word)
      {
        if i > 0 {
          assert ps[i] == d.0[i - 1];
        }
      }
      forall i | 1 <= i < |ps|
        ensures |ps[i].lead| > 0
      {
        assert ps[i] == d.0[i - 1];
        if i == 1 {
          assert |tail| > 0 && IsSpace(tail[0]);
        }
      }
    }
  }

  lemma LayoutCons(p: Piece, ps: seq<Piece>, trail: string)
    ensures Layout([p] + ps, trail) == p.lead + (p.word + Layout(ps, trail))
  {
    assert ([p] + ps)[1..] == ps;
  }

  lemma {:induction false} SplitSkipsSpace(w: string, s: string)
    requires AllSpace(w)
    ensures Split(w + s) == Split(s)
  {
    if w != [] {
      assert (w + s)[0] == w[0] && IsSpace(w[0]);
      assert (w + s)[1..] == w[1..] + s;
      assert Split(w + s) == Split(w[1..] + s);
      SplitSkipsSpace(w[1..], s);
    } else {
      assert w + s == s;
    }
  }

  lemma {:induction false} TokenOfPiece(t: string, s: string)
    requires |t| > 0 && NoSpace(t)
    requires s == [] || IsSpace(s[0])
    ensures Token(t + s) == t
  {
    if |t| > 1 {
      assert (t + s)[1..] == t[1..] + s;
      TokenOfPiece(t[1..], s);
    } else {
      assert (t + s)[1..] == s;
    }
  }

  lemma SplitPiece(t: string, s: string)
    requires |t| > 0 && NoSpace(t)
    requires s == [] || IsSpace(s[0])
    ensures Split(t + s) == [t] + Split(s)
  {
    TokenOfPiece(t, s);
    assert (t + s)[|t|..] == s;
  }

  /** Splitting a separated layout yields exactly its words, in order:
      padding of any length and kind disappears and no word is cut. */
  lemma {:induction false} SplitLayout(pieces: seq<Piece>, trail: string)
    requires Separated(pieces, trail)
    ensures Split(Layout(pieces, trail)) == Words(pieces)
  {
    if pieces == [] {
      SplitSkipsSpace(trail, []);
      assert trail + [] == trail;
    } else {
      var rest := Layout(pieces[1..], trail);
      assert Separated(pieces[1..], trail);
      SplitLayout(pieces[1..], trail);
      var w := pieces[0].word;
      assert rest == [] || IsSpace(rest[0]) by {
        if |pieces| > 1 {
          assert rest == pieces[1].lead + (pieces[1].word + Layout(pieces[2..], trail));
          assert IsSpace(pieces[1].lead[0]);
        }
      }
      assert pieces[0].lead + w + rest == pieces[0].lead + (w + rest);
      SplitSkipsSpace(pieces[0].lead, w + rest);
      SplitPiece(w, rest);
      assert Words(pieces) == [w] + Words(pieces[1..]);
    }
  }

  /** For every text, `str.split()` gives the words of its separated
      layout. */
  lemma SplitWords(s: string)
    ensures Split(s) == Words(Decompose(s).0)
  {
    var d := Decompose(s);
    DecomposeSeparated(s);
    SplitLayout(d.0, d.1);
  }

  predicate IsDigit(c: char) {
    '0' <= c <= '9'
  }

  predicate AllDigits(s: string) {
    forall i :: 0 <= i < |s| ==> IsDigit(s[i])
  }

  function DigitValue(c: char): nat
    requires IsDigit(c)
  {
    (c - '0') as nat
  }

  function DigitChar(d: nat): (c: char)
    requires d < 10
    ensures IsDigit(c) && DigitValue(c) == d
  {
    ('0' as int + d) as char
  }

  /** The decimal value of a digit string (0 for the empty string). */
  function DigitsValue(s: string): nat
    requires AllDigits(s)
  {
    if s == [] then 0
    else 10 * DigitsValue(s[..|s| - 1]) + DigitValue(s[|s| - 1])
  }

  /** The decimal rendering of a natural number, as `ps` prints a pid. */
  function Decimal(n: nat): (s: string)
    ensures |s| > 0 && AllDigits(s) && NoSpace(s)
  {
    if n < 10 then [DigitChar(n)]
    else Decimal(n / 10) + [DigitChar(n % 10)]
  }

  datatype ParseError = ValueError(token: string)

  /** Digits, or a sign followed by digits. */
  predicate IntLiteral(token: string) {
    || (|token| > 0 && AllDigits(token))
    || (|token| > 1 && (token[0] == '-' || token[0] == '+') && AllDigits(token[1..]))
  }

  /** `int(token)` for a token without whitespace: an optional `+` or `-`
      followed by at least one decimal digit, read in base 10. */
  function ParseInt(token: string): (r: Result<int, ParseError>)
    ensures r.Err? <==> !IntLiteral(token)
    ensures r.Err? ==> r.error == ValueError(token)
    ensures |token| > 0 && AllDigits(token) ==> r == Ok(DigitsValue(token))
    ensures |token| > 1 && token[0] == '+' && AllDigits(token[1..]) ==> r == Ok(DigitsValue(token[1..]))
    ensures |token| > 1 && token[0] == '-' && AllDigits(token[1..]) ==> r == Ok(0 - DigitsValue(token[1..]))
  {
    if |token| > 1 && token[0] == '-' && AllDigits(token[1..]) then Ok(0 - DigitsValue(token[1..]) as int)
    else if |token| > 1 && token[0] == '+' && AllDigits(token[1..]) then Ok(DigitsValue(token[1..]))
    else if |token| > 0 && AllDigits(token) then Ok(DigitsValue(token))
    else Err(ValueError(token))
  }

  /** Parses every token, failing on the first one that is not an integer. */
  function ParseAll(tokens: seq<string>): (r: Result<seq<int>, ParseError>)
    ensures r.Ok? ==> |r.value| == |tokens|
    ensures r.Ok? ==> forall i :: 0 <= i < |tokens| ==> ParseInt(tokens[i]) == Ok(r.value[i])
    ensures r.Err? ==> exists i :: 0 <= i < |tokens| && ParseInt(tokens[i]).Err?
  {
    if tokens == [] then Ok([])
    else
      match ParseInt(tokens[0])
      case Err(e) => Err(e)
      case Ok(v) =>
        match ParseAll(tokens[1..])
        case Err(e) => Err(e)
        case Ok(vs) => Ok([v] + vs)
  }

  /** `get_process_children`: the pids listed in the output of `ps`. */
  function ProcessChildren(output: string): (r: Result<seq<int>, ParseError>)
    ensures r.Ok? ==> |r.value| == |Split(output)|
  {
    ParseAll(Split(output))
  }

  /** The decimal rendering of any integer, with a `-` in front of a
      negative one. */
  function Signed(i: int): (s: string)
    ensures IntLiteral(s)
  {
    if i < 0 then "-" + Decimal(-i) else Decimal(i)
  }

  lemma {:induction false} DigitsOfDecimal(n: nat)
    ensures DigitsValue(Decimal(n)) == n
  {
    var s := Decimal(n);
    if n >= 10 {
      assert s[..|s| - 1] == Decimal(n / 10);
      DigitsOfDecimal(n / 10);
    }
  }

  lemma ParseDecimal(n: nat)
    ensures ParseInt(Decimal(n)) == Ok(n)
  {
    DigitsOfDecimal(n);
  }

  /** `int()` reads back every integer rendered in decimal, sign included. */
  lemma ParseSigned(i: int)
    ensures ParseInt(Signed(i)) == Ok(i)
  {
    if i < 0 {
      DigitsOfDecimal(-i);
      assert Signed(i)[1..] == Decimal(-i);
    } else {
      DigitsOfDecimal(i);
    }
  }

  /** One line of `ps` output: leading padding, then a pid. */
  datatype PsLine = PsLine(lead: string, pid: nat)

  /** The lines as padded decimal words. */
  function LinePieces(lines: seq<PsLine>): (ps: seq<Piece>)
    ensures |ps| == |lines|
    ensures forall i :: 0 <= i < |lines| ==> ps[i] == Piece(lines[i].lead, Decimal(lines[i].pid))
  {
    seq(|lines|, i requires 0 <= i < |lines| => Piece(lines[i].lead, Decimal(lines[i].pid)))
  }

  /** Lines rendered one after another, followed by trailing text. */
  function Render(lines: seq<PsLine>, trail: string): string {
    Layout(LinePieces(lines), trail)
  }

  function Pids(lines: seq<PsLine>): (ps: seq<nat>)
    ensures |ps| == |lines|
    ensures forall i :: 0 <= i < |lines| ==> ps[i] == lines[i].pid
  {
    seq(|lines|, i requires 0 <= i < |lines| => lines[i].pid)
  }

  /** Lines are padded: every padding is whitespace, every padding after
      the first is non-empty, and the trailing text is whitespace. */
  predicate Padded(lines: seq<PsLine>, trail: string) {
    && (forall i :: 0 <= i < |lines| ==> AllSpace(lines[i].lead))
    && (forall i :: 1 <= i < |lines| ==> |lines[i].lead| > 0)
    && AllSpace(trail)
  }

  /** Natural numbers written in decimal, one word each. */
  function DecimalWords(ns: seq<nat>): (ws: seq<string>)
    ensures |ws| == |ns|
    ensures forall i :: 0 <= i < |ns| ==> ws[i] == Decimal(ns[i])
  {
    seq(|ns|, i requires 0 <= i < |ns| => Decimal(ns[i]))
  }

  lemma {:induction false} ParseAllDecimals(ns: seq<nat>)
    ensures ParseAll(DecimalWords(ns)) == Ok(ns)
  {
    if ns != [] {
      var ws := DecimalWords(ns);
      ParseDecimal(ns[0]);
      assert ws[1..] == DecimalWords(ns[1..]);
      ParseAllDecimals(ns[1..]);
      assert ns == [ns[0]] + ns[1..];
    }
  }

  /** Rendering pids separated by whitespace (spaces, newlines, the
      right-aligned padding of `ps`) and parsing the text back yields the
      same pids in the same order. */
  lemma ProcessChildrenRoundTrip(lines: seq<PsLine>, trail: string)
    requires Padded(lines, trail)
    ensures ProcessChildren(Render(lines, trail)) == Ok(Pids(lines))
  {
    var pieces := LinePieces(lines);
    assert Separated(pieces, trail);
    SplitLayout(pieces, trail);
    assert Words(pieces) == DecimalWords(Pids(lines));
    ParseAllDecimals(Pids(lines));
  }
}

=== FILE: seq_facts.dfy ===
/** Facts about sequences, their element sets and duplicates. */
module SeqFacts {

  /** No element occurs twice. */
  predicate Distinct<T(==)>(s: seq<T>) {
    forall i, j :: 0 <= i < j < |s| ==> s[i] != s[j]
  }

  /** The set of elements of a sequence. */
  function Elems<T>(s: seq<T>): set<T> {
    set x | x in s
  }

  /** A sequence has at most as many distinct elements as positions, and
      exactly as many precisely when it has no duplicates. */
  lemma {:induction false} ElemsCard<T>(s: seq<T>)
    ensures |Elems(s)| <= |s|
    ensures |Elems(s)| == |s| <==> Distinct(s)
  {
    if s == [] {
      assert Elems(s) == {};
    } else {
      var rest := s[1..];
      ElemsCard(rest);
      assert Elems(s) == {s[0]} + Elems(rest);
      if s[0] in rest {
        assert Elems(s) == Elems(rest);
        var j :| 0 <= j < |rest| && rest[j] == s[0];
        assert s[0] == s[j + 1];
      } else {
        assert |Elems(s)| == 1 + |Elems(rest)|;
        if Distinct(rest) {
          forall i, j | 0 <= i < j < |s|
            ensures s[i] != s[j]
          {
            assert s[j] == rest[j - 1];
            if i > 0 {
              assert s[i] == rest[i - 1];
            }
          }
        } else {
          var i, j :| 0 <= i < j < |rest| && rest[i] == rest[j];
          assert s[i + 1] == s[j + 1];
        }
      }
    }
  }

  /** A subset is no larger than its superset. */
  lemma SubsetCard<T>(a: set<T>, b: set<T>)
    requires a <= b
    ensures |a| <= |b|
  {
    assert b == a + (b - a);
  }

  /** A subset at least as large as its superset is the superset. */
  lemma SubsetSameCard<T>(a: set<T>, b: set<T>)
    requires a <= b
    requires |b| <= |a|
    ensures a == b
  {
    assert b == a + (b - a);
  }

  /** Pigeonhole: if the distinct elements of `xs` all occur among as many
      positions of `ps`, then `ps` lists exactly those elements, each once. */
  lemma Pigeonhole<T>(ps: seq<T>, xs: seq<T>)
    requires Distinct(xs)
    requires |ps| == |xs|
    requires forall i :: 0 <= i < |xs| ==> xs[i] in ps
    ensures Distinct(ps)
    ensures forall i :: 0 <= i < |ps| ==> ps[i] in xs
  {
    ElemsCard(xs);
    ElemsCard(ps);
    assert Elems(xs) <= Elems(ps) by {
      forall x | x in Elems(xs)
        ensures x in Elems(ps)
      {
        var i :| 0 <= i < |xs| && xs[i] == x;
      }
    }
    SubsetSameCard(Elems(xs), Elems(ps));
    forall i | 0 <= i < |ps|
      ensures ps[i] in xs
    {
      assert ps[i] in Elems(ps);
    }
  }
}

=== FILE: smart_run.dfy ===
/** The argument-selection rule of `_smart_run`: given what a setup step
    returned (positional args and keyword args) and a test function's code
    object, decide which of them the function is called with.

    A code object is described by its local names (`co_varnames`: the
    parameters first, then the other locals), the number of parameters
    (`co_argcount`) and the number of locals (`co_nlocals`). */
module SmartRun {
  import opened SeqFacts

  datatype CodeInfo = CodeInfo(varnames: seq<string>, argcount: nat, nlocals: nat)

  /** The arguments a call is made with. */
  datatype Call<A> = Call(args: seq<A>, kwargs: map<string, A>)

  function Min(a: int, b: int): int {
    if a <= b then a else b
  }

  function Max(a: int, b: int): int {
    if a <= b then b else a
  }

  /** Python's slice `s[:n]`: a negative `n` counts from the end. */
  function SlicePrefix<T>(s: seq<T>, n: int): (r: seq<T>)
    ensures |r| <= |s| && r == s[..|r|]
    ensures n >= 0 ==> |r| == Min(n, |s|)
    ensures n < 0 ==> |r| == Max(0, |s| + n)
  {
    if n >= 0 then s[..Min(n, |s|)] else s[..Max(0, |s| + n)]
  }

  /** The keyword args whose names occur among `names`, with their values. */
  function SelectKwargs<A>(kwargs: map<string, A>, names: seq<string>): (kw: map<string, A>)
    ensures forall k :: k in kw <==> k in kwargs && k in names
    ensures forall k :: k in kw ==> kw[k] == kwargs[k]
  {
    map k | k in kwargs && k in names :: kwargs[k]
  }

  /** Selecting by distinct names picks at most as many keyword args as
      there are names. */
  lemma SelectionBound<A>(kwargs: map<string, A>, names: seq<string>)
    requires Distinct(names)
    ensures |SelectKwargs(kwargs, names)| <= |names|
  {
    var kw := SelectKwargs(kwargs, names);
    assert kw.Keys <= Elems(names);
    ElemsCard(names);
    SubsetCard(kw.Keys, Elems(names));
    assert |kw| == |kw.Keys|;
  }

  /** The selection as the source writes it: keyword args are filtered by
      the first `co_nlocals` local names, and as many positional args are
      passed as the locals left over. */
  function SmartRunCall<A>(code: CodeInfo, args: seq<A>, kwargs: map<string, A>): (c: Call<A>)
    ensures forall k :: k in c.kwargs <==> k in kwargs && k in SlicePrefix(code.varnames, code.nlocals)
    ensures forall k :: k in c.kwargs ==> c.kwargs[k] == kwargs[k]
    ensures |c.args| <= |args| && c.args == args[..|c.args|]
  {
    var kw := SelectKwargs(kwargs, SlicePrefix(code.varnames, code.nlocals));
    Call(SlicePrefix(args, code.nlocals - |kw|), kw)
  }

  /** With distinct local names (as every code object has), no more
      keyword args are chosen than there are locals, so the positional args
      passed are exactly the first `co_nlocals - |selected kwargs|` (or all
      of them, if there are fewer). */
  lemma SmartRunPositionalPrefix<A>(code: CodeInfo, args: seq<A>, kwargs: map<string, A>)
    requires Distinct(code.varnames)
    ensures |SmartRunCall(code, args, kwargs).kwargs| <= code.nlocals
    ensures var c := SmartRunCall(code, args, kwargs);
      c.args == args[..Min(code.nlocals - |c.kwargs|, |args|)]
  {
    var names := SlicePrefix(code.varnames, code.nlocals);
    assert Distinct(names);
    SelectionBound(kwargs, names);
  }

  /** A local variable of the test function that is not one of its
      parameters is still offered as a keyword argument, so the call would
      fail with an unexpected keyword argument. */
  lemma SmartRunPassesNonParameter()
    ensures var code := CodeInfo(["app1", "log"], 1, 2);
      var c := SmartRunCall(code, [], map["app1" := 1, "log" := 2]);
      "log" in c.kwargs && "log" !in code.varnames[..code.argcount]
  {
    var code := CodeInfo(["app1", "log"], 1, 2);
    assert SlicePrefix(code.varnames, code.nlocals) == ["app1", "log"];
  }

  /** The evidently intended selection: only the function's parameters (the
      first `co_argcount` local names) are offered, and as many positional
      args as parameters are left unfilled. */
  function SmartRunParams<A>(code: CodeInfo, args: seq<A>, kwargs: map<string, A>): (c: Call<A>)
    ensures forall k :: k in c.kwargs ==>
      k in SlicePrefix(code.varnames, code.argcount) && k in kwargs && c.kwargs[k] == kwargs[k]
    ensures forall k :: k in kwargs && k in SlicePrefix(code.varnames, code.argcount) ==> k in c.kwargs
    ensures |c.args| <= |args| && c.args == args[..|c.args|]
    ensures Distinct(code.varnames) ==> |c.kwargs| + |c.args| <= code.argcount
  {
    var params := SlicePrefix(code.varnames, code.argcount);
    var kw := SelectKwargs(kwargs, params);
    assert Distinct(code.varnames) ==> |kw| <= |params| by {
      if Distinct(code.varnames) {
        assert Distinct(params);
        SelectionBound(kwargs, params);
      }
    }
    Call(SlicePrefix(args, code.argcount - |kw|), kw)
  }
}

=== FILE: task_config.dfy ===
/** Test-time renaming of a task graph configuration: every app name is
    moved under `test_stolos/<function name>/`, injected tasks are merged
    over the base tasks, and injection refuses names without that prefix.

    A configuration is a map from app name to task definition; the task
    definitions are opaque (type parameter `V`). */
module TaskConfig {
  import opened Wrappers

  /** Python's `str.startswith`. */
  predicate HasPrefix(s: string, prefix: string) {
    |prefix| <= |s| && s[..|prefix|] == prefix
  }

  /** The namespace a test function's apps live under. */
  function TestPrefix(funcName: string): string {
    "test_stolos/" + funcName + "/"
  }

  lemma PrefixedHasPrefix(prefix: string, k: string)
    ensures HasPrefix(prefix + k, prefix)
  {
    assert (prefix + k)[..|prefix|] == prefix;
  }

  lemma ConcatInjective(prefix: string, a: string, b: string)
    ensures prefix + a == prefix + b ==> a == b
  {
    assert (prefix + a)[|prefix|..] == a;
    assert (prefix + b)[|prefix|..] == b;
  }

  /** The name a key ends up with: unchanged if it already carries the
      prefix, otherwise prefixed. */
  function RenameKey(prefix: string, k: string): (nk: string)
    ensures HasPrefix(nk, prefix)
    ensures HasPrefix(k, prefix) ==> nk == k
    ensures !HasPrefix(k, prefix) ==> nk == prefix + k
  {
    if HasPrefix(k, prefix) then k
    else
      PrefixedHasPrefix(prefix, k);
      prefix + k
  }

  /** The `(old, new)` rename pairs for the keys, in key order: one per key
      that lacks the prefix (a key listed twice is renamed twice). */
  function RenameList(prefix: string, keys: seq<string>): (r: seq<(string, string)>)
    ensures |r| <= |keys|
    ensures forall i :: 0 <= i < |r| ==>
      r[i].1 == prefix + r[i].0 && !HasPrefix(r[i].0, prefix) && r[i].0 in keys
    ensures forall k :: k in keys && !HasPrefix(k, prefix) ==> (k, prefix + k) in r
  {
    if keys == [] then []
    else
      var rest := RenameList(prefix, keys[1..]);
      if HasPrefix(keys[0], prefix) then rest else [(keys[0], prefix + keys[0])] + rest
  }

  /** `renames` of `_create_tasks_json`: the rename pairs over the base
      configuration's keys followed by the injected configuration's keys. */
  function Renames(funcName: string, baseKeys: seq<string>, injectKeys: seq<string>)
    : (r: seq<(string, string)>)
    ensures forall i :: 0 <= i < |r| ==>
      r[i].1 == TestPrefix(funcName) + r[i].0 && (r[i].0 in baseKeys || r[i].0 in injectKeys)
    ensures forall k :: (k in baseKeys || k in injectKeys) && !HasPrefix(k, TestPrefix(funcName)) ==>
      (k, TestPrefix(funcName) + k) in r
  {
    RenameList(TestPrefix(funcName), baseKeys + injectKeys)
  }

  /** Every key after renaming, in the same order. */
  function RenamedKeys(prefix: string, keys: seq<string>): (r: seq<string>)
    ensures |r| == |keys|
    ensures forall i :: 0 <= i < |keys| ==> r[i] == RenameKey(prefix, keys[i])
  {
    seq(|keys|, i requires 0 <= i < |keys| => RenameKey(prefix, keys[i]))
  }

  /** Renaming is idempotent: over keys that were already renamed there is
      nothing left to rename. */
  lemma {:induction false} RenamesIdempotent(prefix: string, keys: seq<string>)
    ensures RenameList(prefix, RenamedKeys(prefix, keys)) == []
  {
    if keys != [] {
      var rk := RenamedKeys(prefix, keys);
      assert rk[1..] == RenamedKeys(prefix, keys[1..]);
      RenamesIdempotent(prefix, keys[1..]);
    }
  }

  /** A configuration with every app name renamed. When both `k` and its
      prefixed form are present, the entry already under the prefixed name
      is the one kept. */
  function RenameConfig<V>(prefix: string, m: map<string, V>): (r: map<string, V>)
    ensures forall k :: k in m ==> RenameKey(prefix, k) in r
    ensures forall nk :: nk in r ==>
      && HasPrefix(nk, prefix)
      && (nk in m || (nk[|prefix|..] in m && !HasPrefix(nk[|prefix|..], prefix)))
    ensures forall k :: k in m && HasPrefix(k, prefix) ==> k in r && r[k] == m[k]
    ensures forall k :: k in m && !HasPrefix(k, prefix) && prefix + k !in m ==>
      prefix + k in r && r[prefix + k] == m[k]
  {
    forall a, b
      ensures prefix + a == prefix + b ==> a == b
    {
      ConcatInjective(prefix, a, b);
    }
    var kept := map k | k in m && HasPrefix(k, prefix) :: m[k];
    var moved := map k | k in m && !HasPrefix(k, prefix) :: prefix + k := m[k];
    var r := moved + kept;
    assert forall k :: k in m && !HasPrefix(k, prefix) ==> (prefix + k)[|prefix|..] == k;
    forall k | k in m && !HasPrefix(k, prefix)
      ensures HasPrefix(prefix + k, prefix)
    {
      PrefixedHasPrefix(prefix, k);
    }
    r
  }

  /** A configuration whose names all carry the prefix is left as it is. */
  lemma RenameConfigKeepsPrefixed<V>(prefix: string, m: map<string, V>)
    requires forall k :: k in m ==> HasPrefix(k, prefix)
    ensures RenameConfig(prefix, m) == m
  {
    var r := RenameConfig(prefix, m);
    forall nk | nk in r
      ensures nk in m
    {
    }
  }

  /** The configuration written for a test: the renamed base tasks updated
      with the renamed injected tasks. */
  function MergeConfig<V>(funcName: string, base: map<string, V>, inject: map<string, V>)
    : (r: map<string, V>)
    ensures r.Keys == RenameConfig(TestPrefix(funcName), base).Keys + RenameConfig(TestPrefix(funcName), inject).Keys
    ensures forall k :: k in RenameConfig(TestPrefix(funcName), inject) ==>
      r[k] == RenameConfig(TestPrefix(funcName), inject)[k]
    ensures forall k :: k in RenameConfig(TestPrefix(funcName), base) && k !in RenameConfig(TestPrefix(funcName), inject) ==>
      r[k] == RenameConfig(TestPrefix(funcName), base)[k]
  {
    var p := TestPrefix(funcName);
    RenameConfig(p, base) + RenameConfig(p, inject)
  }

  datatype InjectError = PrefixMissing(prefix: string)

  /** `inject_into_dag`: refuses any injected app name without the test
      prefix, otherwise produces the merged configuration. */
  function InjectIntoDag<V>(funcName: string, base: map<string, V>, inject: map<string, V>)
    : (r: Result<map<string, V>, InjectError>)
    ensures r.Err? <==> exists k :: k in inject && !HasPrefix(k, TestPrefix(funcName))
    ensures r.Err? ==> r.error == PrefixMissing(TestPrefix(funcName))
    ensures r.Ok? ==> forall k :: k in inject ==> k in r.value && r.value[k] == inject[k]
    ensures r.Ok? ==> forall k :: k in base && HasPrefix(k, TestPrefix(funcName)) && k !in inject ==>
      k in r.value && r.value[k] == base[k]
    ensures r.Ok? ==> forall k ::
      (k in base && !HasPrefix(k, TestPrefix(funcName)) &&
       TestPrefix(funcName) + k !in base && TestPrefix(funcName) + k !in inject) ==>
      TestPrefix(funcName) + k in r.value && r.value[TestPrefix(funcName) + k] == base[k]
    ensures r.Ok? ==> forall nk :: nk in r.value ==>
      HasPrefix(nk, TestPrefix(funcName)) &&
      (nk in inject || nk in base || nk[|TestPrefix(funcName)|..] in base)
  {
    var p := TestPrefix(funcName);
    if exists k :: k in inject && !HasPrefix(k, p) then Err(PrefixMissing(p))
    else
      RenameConfigKeepsPrefixed(p, inject);
      Ok(MergeConfig(funcName, base, inject))
  }
}

=== FILE: validators.dfy ===
/** The lifecycle checks that test suites run against a job's status view
    (`validate_*`), as predicates, and what they imply about the store. */
module Validators {
  import opened Wrappers
  import opened SeqFacts
  import opened ZkStore

  predicate OneFailedTask(s: Status) {
    && s.numExecuteLocks == 0
    && s.numAddLocks == 0
    && !s.inQueue
    && s.state == "failed"
  }

  predicate OneQueuedExecutingTask(s: Status) {
    && s.numExecuteLocks == 1
    && s.numAddLocks == 0
    && s.inQueue
    && s.appQsize == 1
    && s.state == "pending"
  }

  /** One of `n` jobs waiting in the app's queue, none of them claimed. */
  predicate NQueuedTask(s: Status, n: nat) {
    && s.numExecuteLocks == 0
    && s.numAddLocks == 0
    && s.inQueue
    && s.appQsize == n
    && s.state == "pending"
  }

  predicate OneQueuedTask(s: Status) {
    NQueuedTask(s, 1)
  }

  predicate OneCompletedTask(s: Status) {
    && s.numExecuteLocks == 0
    && s.numAddLocks == 0
    && !s.inQueue
    && s.appQsize == 0
    && s.state == "completed"
  }

  predicate OneSkippedTask(s: Status) {
    && s.numExecuteLocks == 0
    && s.numAddLocks == 0
    && !s.inQueue
    && s.appQsize == 0
    && s.state == "skipped"
  }

  /** The lifecycle phases the checks recognise. */
  datatype Phase = Queued(n: nat) | QueuedExecuting | Completed | Skipped | Failed

  /** The check of one phase. */
  predicate Satisfies(s: Status, p: Phase) {
    match p
    case Queued(n) => NQueuedTask(s, n)
    case QueuedExecuting => OneQueuedExecutingTask(s)
    case Completed => OneCompletedTask(s)
    case Skipped => OneSkippedTask(s)
    case Failed => OneFailedTask(s)
  }

  /** Reads the phase off a status record by its stored state first and its
      counters second. Its contract makes the checks pairwise exclusive:
      a record satisfies exactly the phase returned, or none. */
  function PhaseOf(s: Status): (r: Option<Phase>)
    ensures forall p :: Satisfies(s, p) <==> r == Some(p)
  {
    if s.numAddLocks != 0 then None
    else if s.state == "pending" then
      if !s.inQueue then None
      else if s.numExecuteLocks == 0 then Some(Queued(s.appQsize))
      else if s.numExecuteLocks == 1 && s.appQsize == 1 then Some(QueuedExecuting)
      else None
    else if s.inQueue || s.numExecuteLocks != 0 then None
    else if s.state == "failed" then Some(Failed)
    else if s.appQsize != 0 then None
    else if s.state == "completed" then Some(Completed)
    else if s.state == "skipped" then Some(Skipped)
    else None
  }

  /** No status record passes two different checks. */
  lemma ChecksDisjoint(s: Status, p: Phase, q: Phase)
    requires Satisfies(s, p) && Satisfies(s, q)
    ensures p == q
  {
    assert PhaseOf(s) == Some(p);
  }

  /** The one-queued check is the n-queued check with n = 1: no locks, in
      the queue, a queue of one, pending. */
  lemma OneQueuedIsNQueuedOne(s: Status)
    ensures OneQueuedTask(s) <==>
      s.numExecuteLocks == 0 && s.numAddLocks == 0 && s.inQueue && s.appQsize == 1 && s.state == "pending"
  {
  }

  /** The failed check does not look at the queue size, unlike the
      completed and skipped checks, which require an empty queue. */
  lemma FailedIgnoresQueueSize(s: Status, k: nat)
    requires OneFailedTask(s)
    ensures OneFailedTask(s.(appQsize := k))
    ensures k != 0 ==> !OneCompletedTask(s.(appQsize := k)) && !OneSkippedTask(s.(appQsize := k))
  {
  }

  /** A check run against the store: the status view must be readable and
      pass the phase's check. */
  predicate ValidateTask(store: Store, pathOf: JobPathFn, app: string, jobId: string, p: Phase) {
    var r := GetZkStatus(store, pathOf, app, jobId);
    r.Ok? && Satisfies(r.value, p)
  }

  /** `validate_n_queued_task`: every listed job is queued, unclaimed and
      sees a queue as long as the list. */
  predicate ValidateNQueuedTask(store: Store, pathOf: JobPathFn, app: string, jobIds: seq<string>) {
    forall i :: 0 <= i < |jobIds| ==> ValidateTask(store, pathOf, app, jobIds[i], Queued(|jobIds|))
  }

  /** `validate_one_queued_task` delegates to the n-queued check with a
      single job. */
  predicate ValidateOneQueuedTask(store: Store, pathOf: JobPathFn, app: string, jobId: string) {
    ValidateNQueuedTask(store, pathOf, app, [jobId])
  }

  /** The app's queue is empty or absent. */
  predicate ValidateZeroQueuedTask(store: Store, app: string) {
    EntriesPath(app) in store ==> |store[EntriesPath(app)].children| == 0
  }

  /** The app's completion records are empty or absent. */
  predicate ValidateZeroCompletedTask(store: Store, app: string) {
    Join(app, "all_subtasks") in store ==> |store[Join(app, "all_subtasks")].children| == 0
  }

  /** The single-job queued check is the queued phase with a queue of one. */
  lemma OneQueuedValidation(store: Store, pathOf: JobPathFn, app: string, jobId: string)
    ensures ValidateOneQueuedTask(store, pathOf, app, jobId) <==>
      ValidateTask(store, pathOf, app, jobId, Queued(1))
  {
    var ids := [jobId];
    if ValidateTask(store, pathOf, app, jobId, Queued(1)) {
      forall i | 0 <= i < |ids|
        ensures ValidateTask(store, pathOf, app, ids[i], Queued(|ids|))
      {
      }
    }
    if ValidateOneQueuedTask(store, pathOf, app, jobId) {
      assert ids[0] == jobId;
    }
  }

  /** With an empty queue no job reads as queued. */
  lemma ZeroQueuedNotInQueue(store: Store, pathOf: JobPathFn, app: string, jobId: string)
    requires ValidateZeroQueuedTask(store, app)
    requires GetZkStatus(store, pathOf, app, jobId).Ok?
    ensures !GetZkStatus(store, pathOf, app, jobId).value.inQueue
    ensures GetZkStatus(store, pathOf, app, jobId).value.appQsize == 0
  {
  }

  /** The ids as the payloads they are stored as. */
  function AsPayloads(jobIds: seq<string>): (ps: seq<Option<string>>)
    ensures |ps| == |jobIds|
    ensures forall i :: 0 <= i < |jobIds| ==> ps[i] == Some(jobIds[i])
  {
    seq(|jobIds|, i requires 0 <= i < |jobIds| => Some(jobIds[i]))
  }

  /** If `n` distinct jobs all pass the n-queued check, the app's queue
      holds exactly one entry for each of them and nothing else: every
      entry is readable, its payload is one of the ids, no payload repeats,
      and every id has an entry. */
  lemma NQueuedOneEntryEach(store: Store, pathOf: JobPathFn, app: string, jobIds: seq<string>)
    requires |jobIds| >= 1
    requires Distinct(jobIds)
    requires ValidateNQueuedTask(store, pathOf, app, jobIds)
    ensures |EntryPayloads(store, app)| == |jobIds|
    ensures Distinct(EntryPayloads(store, app))
    ensures forall i :: 0 <= i < |EntryPayloads(store, app)| ==>
      EntryPayloads(store, app)[i].Some? && EntryPayloads(store, app)[i].value in jobIds
    ensures forall i :: 0 <= i < |jobIds| ==> Some(jobIds[i]) in EntryPayloads(store, app)
  {
    var ps := EntryPayloads(store, app);
    var xs := AsPayloads(jobIds);
    StatusMeaning(store, pathOf, app, jobIds[0]);
    assert |ps| == |jobIds|;
    forall i | 0 <= i < |jobIds|
      ensures xs[i] in ps
    {
      StatusMeaning(store, pathOf, app, jobIds[i]);
    }
    assert Distinct(xs) by {
      forall i, j | 0 <= i < j < |xs|
        ensures xs[i] != xs[j]
      {
        assert jobIds[i] != jobIds[j];
      }
    }
    Pigeonhole(ps, xs);
    forall i | 0 <= i < |ps|
      ensures ps[i].Some? && ps[i].value in jobIds
    {
      assert ps[i] in xs;
      var j :| 0 <= j < |xs| && xs[j] == ps[i];
    }
  }
}

=== FILE: watchdog.dfy ===
/** The shell executor's `run`: start a child, optionally arm an alarm,
    and on the alarm kill the child and the processes `ps` lists as its
    direct children, returning the `(-9, '', '')` sentinel.

    The child is described by how it would end on its own (return code and
    captured output) and how many seconds it takes to get there. The
    process table is the set of live pids, together with the pids this
    worker is not permitted to signal. */
module Watchdog {
  import opened Wrappers
  import opened SeqFacts
  import opened PsOutput

  datatype Child = Child(pid: int, returncode: int, stdout: string, stderr: string, seconds: nat)

  datatype Procs = Procs(live: set<int>, unsignalable: set<int>)

  /** What `run` returns: `(returncode, stdout, stderr)`. */
  datatype RunResult = RunResult(returncode: int, stdout: string, stderr: string)

  /** The result, the process table afterwards, and the pids signalled. */
  datatype RunReport = RunReport(result: RunResult, procs: Procs, signalled: seq<int>)

  /** The `(-9, '', '')` sentinel of a run stopped by the watchdog. */
  const TimedOutResult := RunResult(-9, "", "")

  /** The watchdog is set up unless the timeout is -1. */
  predicate Armed(timeout: int) {
    timeout != -1
  }

  /** The alarm is requested with the timeout converted to the unsigned
      seconds count the alarm call takes; a count of 0 schedules nothing. */
  function AlarmSeconds(timeout: int): (n: nat)
    ensures n < 0x1_0000_0000
    ensures (timeout - n) % 0x1_0000_0000 == 0
    ensures 0 <= timeout < 0x1_0000_0000 ==> n == timeout
  {
    timeout % 0x1_0000_0000
  }

  /** The alarm interrupts the wait when it is armed, actually scheduled,
      and the child has not finished before it goes off. */
  predicate AlarmFires(timeout: int, child: Child) {
    Armed(timeout) && AlarmSeconds(timeout) != 0 && child.seconds >= AlarmSeconds(timeout)
  }

  /** What a `kill(pid, SIGKILL)` does: kills a live process the worker may
      signal, and otherwise fails with "no such process" or "operation not
      permitted". */
  datatype KillResult = Killed | NoSuchProcess | NotPermitted

  function Kill(pid: int, procs: Procs): (r: (KillResult, Procs))
    ensures r.0 == Killed <==> pid in procs.live && pid !in procs.unsignalable
    ensures r.0 == NotPermitted <==> pid in procs.live && pid in procs.unsignalable
    ensures r.1.unsignalable == procs.unsignalable
    ensures r.1.live == if r.0 == Killed then procs.live - {pid} else procs.live
  {
    if pid !in procs.live then (NoSuchProcess, procs)
    else if pid in procs.unsignalable then (NotPermitted, procs)
    else (Killed, procs.(live := procs.live - {pid}))
  }

  datatype KillReport = KillReport(attempts: seq<KillResult>, procs: Procs)

  /** The kill loop: signals every pid in order; a failed kill is swallowed
      and the loop goes on. Afterwards every listed pid the worker may
      signal is dead, and every other process is as it was. */
  function KillAll(pids: seq<int>, procs: Procs): (k: KillReport)
    ensures |k.attempts| == |pids|
    ensures k.procs.unsignalable == procs.unsignalable
    ensures k.procs.live == procs.live - (Elems(pids) - procs.unsignalable)
    ensures forall i :: 0 <= i < |pids| ==>
      (k.attempts[i] == NotPermitted <==> pids[i] in procs.live && pids[i] in procs.unsignalable)
    ensures forall i :: 0 <= i < |pids| && k.attempts[i] == Killed ==> pids[i] in procs.live
    ensures forall i :: 0 <= i < |pids| && pids[i] !in procs.live ==> k.attempts[i] == NoSuchProcess
  {
    if pids == [] then KillReport([], procs)
    else
      var (res, next) := Kill(pids[0], procs);
      var rest := KillAll(pids[1..], next);
      assert Elems(pids) == {pids[0]} + Elems(pids[1..]);
      KillReport([res] + rest.attempts, rest.procs)
  }

  /** The pids to kill: the child first, then the children `ps` reported
      when the whole tree is to be killed. */
  function KillList(pid: int, killTree: bool, children: seq<int>): (pids: seq<int>)
    ensures |pids| >= 1 && pids[0] == pid
    ensures pids[1..] == (if killTree then children else [])
  {
    [pid] + (if killTree then children else [])
  }

  /** `run(args, kill_tree=killTree, timeout=timeout)`. `psOutput` is what
      `ps` prints for the child's pid when the alarm goes off; a pid it
      prints that `int()` rejects escapes as an error. */
  function Run(child: Child, killTree: bool, timeout: int, psOutput: string, procs: Procs)
    : (r: Result<RunReport, ParseError>)
    ensures !AlarmFires(timeout, child) ==>
      r == Ok(RunReport(RunResult(child.returncode, child.stdout, child.stderr), procs, []))
    ensures r.Err? <==> AlarmFires(timeout, child) && killTree && ProcessChildren(psOutput).Err?
    ensures AlarmFires(timeout, child) && r.Ok? ==>
      && r.value.result == TimedOutResult
      && r.value.signalled ==
        KillList(child.pid, killTree, if killTree then ProcessChildren(psOutput).value else [])
      && r.value.procs.live == procs.live - (Elems(r.value.signalled) - procs.unsignalable)
      && r.value.procs.unsignalable == procs.unsignalable
  {
    if !AlarmFires(timeout, child) then
      Ok(RunReport(RunResult(child.returncode, child.stdout, child.stderr), procs, []))
    else
      var children := if killTree then ProcessChildren(psOutput) else Ok([]);
      match children
      case Err(e) => Err(e)
      case Ok(kids) =>
        var pids := KillList(child.pid, killTree, kids);
        Ok(RunReport(TimedOutResult, KillAll(pids, procs).procs, pids))
  }

  /** Without a watchdog the result is the child's own, unchanged, and no
      process is touched. */
  lemma UnarmedRunIsChildResult(child: Child, killTree: bool, psOutput: string, procs: Procs)
    ensures Run(child, killTree, -1, psOutput, procs) ==
      Ok(RunReport(RunResult(child.returncode, child.stdout, child.stderr), procs, []))
  {
  }

  /** A timeout of 0 sets up the watchdog but schedules no alarm, so it
      behaves like no watchdog at all. */
  lemma ZeroTimeoutNeverFires(child: Child)
    ensures Armed(0) && !AlarmFires(0, child)
  {
  }

  /** Only the child and the direct children `ps` listed are signalled:
      every other live process, grandchildren included, survives. */
  lemma UnlistedProcessesSurvive(child: Child, killTree: bool, timeout: int, psOutput: string, procs: Procs, q: int)
    requires Run(child, killTree, timeout, psOutput, procs).Ok?
    requires q in procs.live
    requires q !in Run(child, killTree, timeout, psOutput, procs).value.signalled
    ensures q in Run(child, killTree, timeout, psOutput, procs).value.procs.live
  {
  }

  /** When `ps` reports the child's direct children, a timed-out run with
      tree killing leaves none of them, nor the child, alive unless the
      worker may not signal it. */
  lemma TimeoutKillsChildAndListed(child: Child, timeout: int, lines: seq<PsLine>, trail: string, procs: Procs)
    requires AlarmFires(timeout, child)
    requires Padded(lines, trail)
    ensures var r := Run(child, true, timeout, Render(lines, trail), procs);
      && r.Ok?
      && r.value.result == TimedOutResult
      && (child.pid !in procs.unsignalable ==> child.pid !in r.value.procs.live)
      && forall i :: 0 <= i < |lines| && lines[i].pid !in procs.unsignalable ==>
           lines[i].pid !in r.value.procs.live
  {
    ProcessChildrenRoundTrip(lines, trail);
    var r := Run(child, true, timeout, Render(lines, trail), procs);
    var pids := r.value.signalled;
    assert pids == [child.pid] + Pids(lines);
    forall i | 0 <= i < |lines|
      ensures lines[i].pid in Elems(pids)
    {
      assert pids[i + 1] == lines[i].pid;
    }
  }
}

=== FILE: wrappers.dfy ===
/** Failure-carrying datatypes used in place of the source's exceptions. */
module Wrappers {

  datatype Option<+T> = None | Some(value: T)

  datatype Result<+T, +E> = Ok(value: T) | Err(error: E)
}

=== FILE: zk_store.dfy ===
/** The coordination-service snapshot that the status view reads, and the
    status view itself (`get_zk_status`).

    The store is an immutable map from a node's path to its payload and the
    names of its children. A job's node path is produced by a function of
    the system that lies outside this model; it is a parameter here. */
module ZkStore {
  import opened Wrappers

  /** One node of the hierarchical store: its payload and the names of its
      children, in the order the service lists them. */
  datatype Node = Node(data: string, children: seq<string>)

  type Store = map<string, Node>

  /** The service's "no such node" failure, carrying the path read. */
  datatype StoreError = NoNode(path: string)

  /** The monitoring view of one job. */
  datatype Status = Status(
    numAddLocks: nat,
    numExecuteLocks: nat,
    inQueue: bool,
    appQsize: nat,
    state: string)

  /** Maps an (app name, job id) pair to the job's node path. */
  type JobPathFn = (string, string) -> string

  /** Path join for a relative name: no separator after an empty directory
      or one that already ends in '/'. */
  function Join(dir: string, name: string): (p: string)
    ensures |p| >= |name|
    ensures p[|p| - |name|..] == name
  {
    if dir == "" then name
    else if dir[|dir| - 1] == '/' then dir + name
    else dir + "/" + name
  }

  function EntriesPath(app: string): string {
    Join(app, "entries")
  }

  function AddLockPath(jobPath: string): string {
    Join(jobPath, "add_lock")
  }

  function ExecuteLockPath(jobPath: string): string {
    Join(jobPath, "execute_lock")
  }

  /** Number of children of `path`, and 0 when the node does not exist. */
  function ChildCount(store: Store, path: string): nat {
    if path in store then |store[path].children| else 0
  }

  /** Every child a node lists exists under its own path. */
  ghost predicate WellFormed(store: Store) {
    forall p, c :: p in store && c in store[p].children ==> Join(p, c) in store
  }

  /** The payload of the entry stored under `dir/name`, or None when that
      node is missing. */
  function PayloadAt(store: Store, dir: string, name: string): Option<string> {
    var p := Join(dir, name);
    if p in store then Some(store[p].data) else None
  }

  /** The payloads of the listed children of `dir`, position by position. */
  function PayloadsOf(store: Store, dir: string, names: seq<string>): (ps: seq<Option<string>>)
    ensures |ps| == |names|
    ensures forall i :: 0 <= i < |names| ==> ps[i] == PayloadAt(store, dir, names[i])
  {
    if names == [] then []
    else [PayloadAt(store, dir, names[0])] + PayloadsOf(store, dir, names[1..])
  }

  /** The payloads of the app's queue entries, in listing order; empty when
      the app has no entries directory. */
  function EntryPayloads(store: Store, app: string): seq<Option<string>> {
    var e := EntriesPath(app);
    if e in store then PayloadsOf(store, e, store[e].children) else []
  }

  /** Every entry before position `i` is readable and its payload is not
      `jobId`: the scan passed over them. */
  predicate PassedOver(store: Store, dir: string, names: seq<string>, jobId: string, i: int)
    requires 0 <= i <= |names|
  {
    forall j :: 0 <= j < i ==> PayloadAt(store, dir, names[j]).Some? && PayloadAt(store, dir, names[j]) != Some(jobId)
  }

  /** The scan stops at the first matching entry: a match preceded only by
      readable entries answers true, whatever comes after it. */
  predicate StopsAtMatch(store: Store, dir: string, names: seq<string>, jobId: string, r: Result<bool, StoreError>) {
    forall i :: 0 <= i < |names| && PayloadAt(store, dir, names[i]) == Some(jobId) && PassedOver(store, dir, names, jobId, i) ==>
      r == Ok(true)
  }

  /** The scan fails at an unreadable entry when it reaches it: every entry
      before it was readable and none matched. */
  predicate StopsAtMissing(store: Store, dir: string, names: seq<string>, jobId: string, r: Result<bool, StoreError>) {
    forall i :: 0 <= i < |names| && Join(dir, names[i]) !in store && PassedOver(store, dir, names, jobId, i) ==>
      r == Err(NoNode(Join(dir, names[i])))
  }

  /** A failure names the first unreadable entry, and no entry before it
      matched. */
  predicate FailsAtFirstMissing(store: Store, dir: string, names: seq<string>, jobId: string, r: Result<bool, StoreError>) {
    r.Err? ==> exists i :: 0 <= i < |names| && r.error == NoNode(Join(dir, names[i])) && PassedOver(store, dir, names, jobId, i)
  }

  /** Passing over the first entry and then `i` more. */
  lemma PassedOverShift(store: Store, dir: string, names: seq<string>, jobId: string, i: nat)
    requires names != [] && i < |names|
    requires PayloadAt(store, dir, names[0]).Some? && PayloadAt(store, dir, names[0]) != Some(jobId)
    ensures PassedOver(store, dir, names, jobId, i + 1) <==> PassedOver(store, dir, names[1..], jobId, i)
  {
    if PassedOver(store, dir, names[1..], jobId, i) {
      forall j | 0 <= j < i + 1
        ensures PayloadAt(store, dir, names[j]).Some? && PayloadAt(store, dir, names[j]) != Some(jobId)
      {
        if j > 0 {
          assert names[j] == names[1..][j - 1];
        }
      }
    }
    if PassedOver(store, dir, names, jobId, i + 1) {
      forall j | 0 <= j < i
        ensures PayloadAt(store, dir, names[1..][j]).Some? && PayloadAt(store, dir, names[1..][j]) != Some(jobId)
      {
        assert names[1..][j] == names[j + 1];
      }
    }
  }

  lemma ScanStepHit(store: Store, dir: string, names: seq<string>, jobId: string, r: Result<bool, StoreError>)
    requires names != [] && PayloadAt(store, dir, names[0]).Some? && PayloadAt(store, dir, names[0]) != Some(jobId)
    requires StopsAtMatch(store, dir, names[1..], jobId, r)
    ensures StopsAtMatch(store, dir, names, jobId, r)
  {
    forall i | 0 <= i < |names| && PayloadAt(store, dir, names[i]) == Some(jobId) && PassedOver(store, dir, names, jobId, i)
      ensures r == Ok(true)
    {
      PassedOverShift(store, dir, names, jobId, i - 1);
      assert names[1..][i - 1] == names[i];
    }
  }

  lemma ScanStepMissing(store: Store, dir: string, names: seq<string>, jobId: string, r: Result<bool, StoreError>)
    requires names != [] && PayloadAt(store, dir, names[0]).Some? && PayloadAt(store, dir, names[0]) != Some(jobId)
    requires StopsAtMissing(store, dir, names[1..], jobId, r)
    ensures StopsAtMissing(store, dir, names, jobId, r)
  {
    forall i | 0 <= i < |names| && Join(dir, names[i]) !in store && PassedOver(store, dir, names, jobId, i)
      ensures r == Err(NoNode(Join(dir, names[i])))
    {
      assert i > 0;
      PassedOverShift(store, dir, names, jobId, i - 1);
      assert names[1..][i - 1] == names[i];
    }
  }

  lemma ScanStepMiss(store: Store, dir: string, names: seq<string>, jobId: string, r: Result<bool, StoreError>)
    requires names != [] && PayloadAt(store, dir, names[0]).Some? && PayloadAt(store, dir, names[0]) != Some(jobId)
    requires FailsAtFirstMissing(store, dir, names[1..], jobId, r)
    ensures FailsAtFirstMissing(store, dir, names, jobId, r)
  {
    if r.Err? {
      var i :| 0 <= i < |names[1..]| && r.error == NoNode(Join(dir, names[1..][i])) && PassedOver(store, dir, names[1..], jobId, i);
      assert names[1..][i] == names[i + 1];
      PassedOverShift(store, dir, names, jobId, i);
    }
  }

  /** The lazy scan behind `in_queue`: reads the entries one by one, stops
      at the first whose payload is `jobId`, and fails on the first entry
      that cannot be read before that. */
  function ScanEntries(store: Store, dir: string, names: seq<string>, jobId: string)
    : (r: Result<bool, StoreError>)
    ensures r.Ok? ==> (r.value <==> Some(jobId) in PayloadsOf(store, dir, names))
    ensures (forall i :: 0 <= i < |names| ==> Join(dir, names[i]) in store) ==> r.Ok?
    ensures r.Err? ==> r.error.path !in store
    ensures StopsAtMatch(store, dir, names, jobId, r)
    ensures FailsAtFirstMissing(store, dir, names, jobId, r)
    ensures StopsAtMissing(store, dir, names, jobId, r)
  {
    if names == [] then Ok(false)
    else
      var p := Join(dir, names[0]);
      if p !in store then
        assert PassedOver(store, dir, names, jobId, 0);
        Err(NoNode(p))
      else if store[p].data == jobId then Ok(true)
      else
        var r := ScanEntries(store, dir, names[1..], jobId);
        ScanStepHit(store, dir, names, jobId, r);
        ScanStepMiss(store, dir, names, jobId, r);
        ScanStepMissing(store, dir, names, jobId, r);
        r
  }

  /** The status view of one job, read from a snapshot of the store. Reads
      happen in the order the record's fields are listed, so a missing
      queue entry is reported before a missing job node. */
  function GetZkStatus(store: Store, pathOf: JobPathFn, app: string, jobId: string)
    : (r: Result<Status, StoreError>)
    ensures pathOf(app, jobId) !in store ==> r.Err?
    ensures WellFormed(store) && pathOf(app, jobId) in store ==> r.Ok?
    ensures pathOf(app, jobId) in store ==> (r.Ok? <==>
      (EntriesPath(app) !in store || ScanEntries(store, EntriesPath(app), store[EntriesPath(app)].children, jobId).Ok?))
    ensures r.Err? ==> r.error.path !in store
    ensures r.Ok? ==> r.value.state == store[pathOf(app, jobId)].data
    ensures r.Ok? && r.value.inQueue ==> r.value.appQsize >= 1
  {
    var path := pathOf(app, jobId);
    var entries := EntriesPath(app);
    var scan :=
      if entries in store then ScanEntries(store, entries, store[entries].children, jobId)
      else Ok(false);
    if scan.Err? then Err(scan.error)
    else if path !in store then Err(NoNode(path))
    else
      Ok(Status(
        numAddLocks := ChildCount(store, AddLockPath(path)),
        numExecuteLocks := ChildCount(store, ExecuteLockPath(path)),
        inQueue := scan.value,
        appQsize := ChildCount(store, entries),
        state := store[path].data))
  }

  /** What each field of a successfully read status means in terms of the
      store: lock counts and queue size are child counts (0 for an absent
      directory), and `inQueue` holds exactly when some queue entry carries
      the job id as its payload. */
  lemma StatusMeaning(store: Store, pathOf: JobPathFn, app: string, jobId: string)
    requires GetZkStatus(store, pathOf, app, jobId).Ok?
    ensures var s := GetZkStatus(store, pathOf, app, jobId).value;
      var path := pathOf(app, jobId);
      && s.numAddLocks == (if AddLockPath(path) in store then |store[AddLockPath(path)].children| else 0)
      && s.numExecuteLocks == (if ExecuteLockPath(path) in store then |store[ExecuteLockPath(path)].children| else 0)
      && s.appQsize == |EntryPayloads(store, app)|
      && (s.inQueue <==> Some(jobId) in EntryPayloads(store, app))
  {
  }
}
